=== FILE: README.md ===
# unique-factory in Dafny

A model of the two unique factories of unique-factory. A unique factory
hands out one shared instance per key and forgets the instance once its last
strong owner drops it.

- **The current factory** (`unique-factory/unique-factory.hpp`) keeps a
  hash map from keys to weak references. Each produced value carries a
  `Deleter` that erases the value's own key from the map when the last strong
  reference goes, unless the deleter has been `orphan()`ed. A retention policy
  keeps some values alive beyond their callers:
  - `KeepNothingAlive` keeps nothing.
  - `KeepSetAlive<history>` keeps a set of strong references that is dropped
    as a whole whenever it already holds `history` values.

  The destructor clears the policy and orphans every remaining deleter.
- **The earlier factory** (`unique_factory.hpp`) keeps a list of
  (weak key, weak value) pairs. `get` scans the list from the front:
  - it erases every entry whose key has an expired part or whose value has
    expired;
  - it returns the first live entry whose key has the same targets;
  - failing that, it calls `create` and puts the new pair at the front.

The model has six modules:

- `SharedObjects` holds what both factories share: object ids (control
  blocks, never reused) and the three outcomes of `get`.
- `Retention` holds the two policies as functions on the working set of
  retained values.
- `FactoryState` holds the current factory as a state machine over values:
  - the state is the cache map, the produced objects (strong count and
    deleter `Attached(key) | Detached`), the working set, a destroyed flag,
    and the next fresh object id;
  - `get`, the release of a reference (which runs the deleter on the last
    one), `clear`, `insert` and the destructor are functions on that state;
  - the invariant `Inv` and the whole-run properties are lemmas about them.
- `Factory` holds the class `UniqueFactory`, whose fields are those of the
  state. Its methods, including the loops of `clear` and of the destructor,
  are proved to perform exactly the transitions of `FactoryState`.
- `WeakKeys` holds the keys of the earlier factory (tuples of plain parts and
  weak references) with `isAlive`, `isValidKey` and `eq` over an abstract
  heap.
- `ListFactory` holds the earlier factory as a class over a `seq` of entries:
  - its `Get` is a loop that erases dead entries in place;
  - `Get` is proved against the specification functions `Prune` (the entries
    that survive) and `FirstMatch` (the index of the entry returned);
  - lemmas prove that the list keeps at most one live entry per key
    through every `get` and through the releases and allocations callers
    make between calls, and that it holds only live entries after a miss;
  - a caller can also write through a `shared_ptr` behind a weak key part,
    which can leave two live entries with equal keys. `get` accepts such a
    list and returns the first of them, so `get` does not require one live
    entry per key; it only keeps that property when it already held.

Three of the whole-run lemmas have empty proofs: FactoryState.LiveObjectIsReturned,
FactoryState.FailedCreateIsRetried and FactoryState.RetainedSurvivesRelease.
They follow from the definitions of `Get` and `DropRef` and the contracts of
the functions these call.

In the current factory, `Deleter::operator()` and the destructor take no lock;
only `get` does. The model follows the code here.

Where the repository's documentation and its code disagree, the model follows
the code. The comment on `KeepSetAlive` says it keeps up to `history` values
alive (unique-factory/unique-factory.hpp:51). With `history == 0` it still keeps
the value inserted last, because `insert` clears and then inserts.
`Retention.Capacity` is 1 for it.

## Model

| member | source | states |
|---|---|---|
| Retention.Capacity | unique-factory/unique-factory.hpp:57-67 | the most values a policy holds: none for `KeepNothingAlive`, `history` for `history >= 1`, and one for `history == 0` |
| Retention.Clear | unique-factory/unique-factory.hpp:43-71 | `clear()` empties the `KeepSetAlive` set and leaves a `KeepNothingAlive` one as it is |
| Retention.Insert | unique-factory/unique-factory.hpp:46-67 | `insert(v)` leaves `v` held; a set already holding `history` values becomes `{v}`, a smaller one gains `v`; `KeepNothingAlive` changes nothing |
| Retention.KeepNothingHoldsNothing | unique-factory/unique-factory.hpp:43-49 | under `KeepNothingAlive` the working set stays empty whatever is inserted |
| Retention.InsertBounded | unique-factory/unique-factory.hpp:62-67 | one insertion keeps the working set within the policy's capacity |
| Retention.InsertAllBounded | unique-factory/unique-factory.hpp:62-67 | any sequence of insertions keeps the set within capacity, and within `history` when `history >= 1` |
| Retention.DropAllEviction | unique-factory/unique-factory.hpp:63-64 | eviction is drop-all: inserting into a full set releases every value held before |
| Retention.ZeroHistoryKeepsLast | unique-factory/unique-factory.hpp:62-67 | `KeepSetAlive<0>` keeps the value inserted last |
| FactoryState.Empty | unique-factory/unique-factory.hpp:106 | a new factory has an empty cache and satisfies the invariant |
| FactoryState.Finalize | unique-factory/unique-factory.hpp:90-95 | `Deleter::operator()` frees the value; an attached deleter erases its own key from the cache, an orphaned one leaves the cache as it is; nothing else changes |
| FactoryState.DropRef | unique-factory/unique-factory.hpp:90-95 | releasing a reference the caller holds keeps the invariant and touches neither the policy nor the working set |
| FactoryState.FinalizeErasesOwnEntry | unique-factory/unique-factory.hpp:90-95 | the deleter frees its value and erases exactly the entries that map to that value; after destruction it leaves the cache alone |
| FactoryState.FinalizeInv | unique-factory/unique-factory.hpp:90-95 | running the deleter on a caller's last reference keeps the invariant |
| FactoryState.ReleaseAfterDestroy | unique-factory/unique-factory.hpp:97-102 | after destruction a release never changes the cache, and the last release still frees the value |
| FactoryState.DropAllStep | unique-factory/unique-factory.hpp:69-71 | destroying the working set's references one by one, in any order, gives the same state |
| FactoryState.ClearRetention | unique-factory/unique-factory.hpp:69-71 | `clear()` on the factory empties the set; every value a caller holds survives with its count and deleter; entries are only removed |
| FactoryState.ClearRetentionPreservesInv | unique-factory/unique-factory.hpp:69-71 | clearing keeps the invariant, and an entry disappears exactly when the policy held the last reference to its value |
| FactoryState.Retain | unique-factory/unique-factory.hpp:146 | handing the returned value to the policy sets the working set to `Insert(policy, set, value)` and leaves the caller's references to it as they were |
| FactoryState.Get | unique-factory/unique-factory.hpp:133-149 | a hit returns the cached object; a miss returns a fresh object if `create()` succeeds; a failure leaves the state unchanged; the invariant holds afterwards |
| FactoryState.LookupOrCreate | unique-factory/unique-factory.hpp:138-144 | after lookup-or-create, `key` maps to the old object on a hit and to the fresh id on a miss, and the caller holds a reference to that object |
| FactoryState.LookupOrCreateInv | unique-factory/unique-factory.hpp:138-144 | lookup-or-create keeps the invariant: the new entry and its attached deleter correspond |
| FactoryState.RetainPreservesInv | unique-factory/unique-factory.hpp:146 | the policy's `insert` keeps the invariant and the entry of the value just returned |
| FactoryState.GetHit | unique-factory/unique-factory.hpp:138-140 | on a hit, `create` is not called, the result is the stored object, the caller gains one reference, and the value is passed to the policy |
| FactoryState.GetMiss | unique-factory/unique-factory.hpp:141-146 | on a miss, `key` maps to a fresh object held once by the caller, with a deleter attached to `key`, and the object is passed to the policy |
| FactoryState.GetOtherKeys | unique-factory/unique-factory.hpp:138-146 | `get` leaves other keys' entries as they were, except entries whose object only a full working set held, which vanish; under `KeepNothingAlive` only `key` changes |
| FactoryState.ReleaseDuringCreate | unique-factory/unique-factory.hpp:141-144 | a `create()` that destroys a reference to another produced value behaves like that release followed by `get`: `key` is still missing, the same object is created, and an entry the release erased stays erased |
| FactoryState.RetainOtherKeys | unique-factory/unique-factory.hpp:62-67 | the policy's `insert` only removes entries whose object only the working set held |
| FactoryState.OrphanAll | unique-factory/unique-factory.hpp:122-123 | orphaning deleters frees no object and changes no strong count |
| FactoryState.OrphanAllStep | unique-factory/unique-factory.hpp:122-123 | orphaning the leaked values one at a time gives the same objects |
| FactoryState.Destroy | unique-factory/unique-factory.hpp:110-124 | the destructor clears the policy, marks the factory destroyed, adds no object or entry, and leaves every value the cache still refers to with a `Detached` deleter; which values survive, with their counts, is FactoryState.DestroyOrphansAll |
| FactoryState.DestroyOrphansAll | unique-factory/unique-factory.hpp:110-124 | after destruction every outstanding deleter is `Detached` and the working set is empty; exactly the values callers hold survive, with their counts |
| FactoryState.LiveObjectIsReturned | unique-factory/unique-factory.hpp:138-140 | while an object is alive, `get` for its key returns that same object |
| FactoryState.ReclaimedThenRecreated | unique-factory/unique-factory.hpp:90-95 | under `KeepNothingAlive`, releasing the last reference frees the value and erases its key, so the next `get` creates a new object |
| FactoryState.FailedCreateIsRetried | unique-factory/unique-factory.hpp:142-143 | a failed `create()` inserts nothing, and the next `get` for the key calls `create` again |
| FactoryState.FullSetReleasesAll | unique-factory/unique-factory.hpp:63-64 | a `get` that finds the working set full frees every held value that no caller holds, and erases its key |
| FactoryState.RetainedSurvivesRelease | unique-factory/unique-factory.hpp:146 | a retained value outlives its last caller reference, and `get` keeps returning it |
| FactoryState.DisplacedThenRecreated | unique-factory/unique-factory.hpp:62-67 | a retained value that only the working set holds is reclaimed when another key fills the set, and is then recreated |
| FactoryState.KeepOneScenario | unique-factory/unique-factory.hpp:133-149 | with `KeepSetAlive<1>`, running get 0, release, get 0, release, get 1, get 0 gives created, hit, created, created |
| FactoryState.KeepOneTail | unique-factory/unique-factory.hpp:133-149 | the second half of that scenario: from one retained value held only by the set, release, get 1, get 0 create objects 1 and 2 |
| Factory.UniqueFactory.constructor | unique-factory/unique-factory.hpp:106 | a new factory is `Empty` |
| Factory.UniqueFactory.RunDeleter | unique-factory/unique-factory.hpp:90-95 | the deleter erases its key if attached and frees the value, as `Finalize` does |
| Factory.UniqueFactory.Release | unique-factory/unique-factory.hpp:90-95 | releasing one reference performs `DropRef`; when the caller held that reference, the invariant is kept |
| Factory.UniqueFactory.Clear | unique-factory/unique-factory.hpp:69-71 | the loop over the working set performs `ClearRetention` |
| Factory.UniqueFactory.Insert | unique-factory/unique-factory.hpp:62-67 | `insert` performs `Retain` |
| Factory.UniqueFactory.Get | unique-factory/unique-factory.hpp:133-149 | `get` returns the outcome and the new state of `FactoryState.Get`, and keeps the invariant |
| Factory.UniqueFactory.Orphan | unique-factory/unique-factory.hpp:100-102 | `orphan()` detaches one deleter and changes nothing else |
| Factory.UniqueFactory.OrphanLeaked | unique-factory/unique-factory.hpp:122-123 | the destructor's loop detaches the deleter of every value in the cache |
| Factory.UniqueFactory.Destroy | unique-factory/unique-factory.hpp:110-124 | the destructor performs `FactoryState.Destroy` and keeps the invariant |
| WeakKeys.IsAlive | unique_factory.hpp:81-88 | a key part is dead only when it is a weak reference whose object has expired; a plain part is always alive |
| WeakKeys.Target | unique_factory.hpp:90-99 | a plain part stands for its own value, a live weak part for the value of the object it refers to |
| WeakKeys.IsValidKey | unique_factory.hpp:101-106 | a valid key has every part alive |
| WeakKeys.Eq | unique_factory.hpp:108-113 | `eq` holds of a key and itself, and only of keys of the same length |
| WeakKeys.Targets | unique_factory.hpp:108-113 | the targets of a valid key: one per part, each the part's value or the referenced object's value |
| WeakKeys.ValidKeyIffAllAlive | unique_factory.hpp:81-88 | a key is valid exactly when none of its weak parts has expired; plain parts are always alive |
| WeakKeys.EqIffComponentwise | unique_factory.hpp:108-113 | `eq` holds exactly when the keys have equal length and equal targets part by part |
| WeakKeys.KeyUnaffected | unique_factory.hpp:101-113 | heaps that agree on a key's weak parts agree on whether the key is valid and on its targets |
| WeakKeys.KeyAfterExpiry | unique_factory.hpp:101-113 | a key still valid after objects expired was valid before, with the same targets |
| ListFactory.Live | unique_factory.hpp:134 | an entry survives the scan exactly when its value and every object its weak key parts refer to are still alive |
| ListFactory.Prune | unique_factory.hpp:132-139 | pruning never lengthens the list and keeps only live entries |
| ListFactory.PruneMembership | unique_factory.hpp:132-139 | the scan keeps exactly the live entries: valid key and value not expired |
| ListFactory.PruneAppend | unique_factory.hpp:132-139 | pruning works segment by segment, so survivors keep their relative order |
| ListFactory.PruneIdempotent | unique_factory.hpp:132-139 | a pruned list has nothing left to prune |
| ListFactory.PruneStep | unique_factory.hpp:134-138 | one step of the scan keeps the visited entry exactly when it is live |
| ListFactory.FirstMatch | unique_factory.hpp:141-143 | the index `get` returns from: a live entry with an equal key, with none before it; or the end of the list |
| ListFactory.FirstMatchAt | unique_factory.hpp:141-146 | a scan that saw no match before `j` and stops at a match or at the end stops at `FirstMatch` |
| ListFactory.ScanErase | unique_factory.hpp:134-138 | erasing a dead entry advances the scan: the list is still the pruned prefix followed by the unvisited rest |
| ListFactory.ScanPass | unique_factory.hpp:141-145 | passing a live entry that does not match advances the scan |
| ListFactory.ScanDone | unique_factory.hpp:141-146 | where the scan stops is `FirstMatch`, and the list is the pruned prefix followed by the untouched rest |
| ListFactory.CountAppend | unique_factory.hpp:132-139 | the live entries for a key in two lists placed end to end add up |
| ListFactory.CountPrune | unique_factory.hpp:132-139 | pruning removes no live entry for any key |
| ListFactory.NoMatchIffNoCount | unique_factory.hpp:141-146 | the scan finds no match exactly when no live entry has the key's targets |
| ListFactory.AgreeingHeaps | unique_factory.hpp:101-113 | heaps that agree on a list's references agree on which entries are live |
| ListFactory.CountAfterExpiry | unique_factory.hpp:134 | objects expiring never make an entry live |
| ListFactory.ExpiryKeepsUnique | unique_factory.hpp:134 | objects expiring between calls keep at most one live entry per key |
| ListFactory.PrunedPrefixFrom | unique_factory.hpp:132-139 | every entry of a partly pruned list comes from the original list |
| ListFactory.HitKeepsUnique | unique_factory.hpp:141-143 | after a hit the list still mentions only allocated ids, and still has at most one live entry per key if it had before |
| ListFactory.FailureKeepsUnique | unique_factory.hpp:148 | after a failed `create`, the fully pruned list holds only live entries of the original, and at most one per key if the original had at most one |
| ListFactory.NewEntryUnique | unique_factory.hpp:141-149 | after a miss the new pair is the only live entry for its key, and the list keeps at most one live entry per key |
| ListFactory.MissLeavesUniqueLive | unique_factory.hpp:132-150 | after a miss, the list holds only live entries and mentions only allocated ids; if it had at most one live entry per key before, it still has, the new one included |
| ListFactory.AllocationKeepsUnique | unique_factory.hpp:126-129 | a caller allocating an object between calls, as it does to build a `shared_ptr` part of the next key, keeps at most one live entry per key and keeps every id the list mentions below the next fresh id |
| ListFactory.ExpiryDuringCreateKeepsUnique | unique_factory.hpp:148-149 | if `create` lets objects expire between the scan and `emplace_front`, the list still has at most one live entry per key |
| ListFactory.Memory.Allocate | unique_factory.hpp:148 | `shared_ptr<V> ret(create(k...))` allocates a fresh object with one strong reference |
| ListFactory.Memory.Lock | unique_factory.hpp:142 | converting the weak value to a `shared_ptr` adds one strong reference to a live object |
| ListFactory.Memory.Release | unique_factory.hpp:134 | a caller dropping a strong reference between calls only lowers a count or lets the object expire, and nothing else changes; line 134 observes the effect through `expired()` |
| ListFactory.Memory.Write | unique_factory.hpp:108-113 | a caller writing through a `shared_ptr` it holds changes that object's value and nothing else, which changes what `eq` sees through weak key parts |
| ListFactory.WriteCanBreakUnique | unique_factory.hpp:141-143 | after such a write, two live entries can have equal keys, and the scan stops at the first of them |
| ListFactory.UniqueFactory.constructor | unique_factory.hpp:116-119 | a new factory has an empty list, which mentions no id and has at most one live entry per key over any valid heap |
| ListFactory.UniqueFactory.Visit | unique_factory.hpp:133-146 | one pass of the loop erases a dead entry, stops at a matching one, or passes a live one |
| ListFactory.UniqueFactory.Scan | unique_factory.hpp:132-146 | the loop leaves the pruned prefix up to `FirstMatch` followed by the untouched rest, and returns the position of the match |
| ListFactory.UniqueFactory.Get | unique_factory.hpp:126-151 | a hit returns the first matching entry's value with one more strong reference and leaves the entries after it untouched; a miss with a successful `create` makes the list the new pair followed by the pruned list; a throwing `create` leaves only the pruning; the list keeps mentioning only allocated ids, keeps at most one live entry per key if it had that before, and holds only live entries after a miss |

## Left out

- Locking: the `std::mutex` and `lock_guard` of both factories are left out. Every operation is one atomic step. In the current factory the deleter and the destructor take no lock anyway.
- The diagnostic that the destructor prints to `std::cerr` when values leak is output only and is not modelled.
- Memory management is abstract. `delete value`, control blocks and `std::get_deleter` become object ids with a strong count and a deleter state. The temporary `shared_ptr` that `leaked.second.lock()` makes in the destructor is created and dropped within one statement, so it is not modelled.
- Hashing and the `Hash`/`KeyEqual` functors are left out. Keys use Dafny's built-in equality and maps.
- Template metaprogramming is left out: the `is_shared_ptr`, `is_weak_ptr` and `is_unique_ptr` traits, the `static_assert`s, and `target`'s forwarding. A key part is either `Plain(value)` or `Weak(ref)`.
- `isAlive` is written `!ptr.expired`, without call parentheses. The model uses its evident meaning, `!ptr.expired()`.
- `target` is written as `*ptr` on a `weak_ptr`, but its weak branch is never taken: `eq` applies it to the parts of a `const WeakKey&`, so `T` is deduced as `const weak_ptr<X>&` and `is_weak_ptr<T>::value` is false. `eq` would then compare the `weak_ptr`s themselves, which have no `operator==`, so `eq` as written does not compile for keys with weak parts. The model uses its evident meaning: a weak part stands for the value of the referenced object.
- `create` is not modelled as a function. The current factory takes `createOk`, saying whether `create()` returns. The earlier one takes `Option<P>`, with `None` when `create` throws. Which value `create` builds is left open.
- The tests and the benchmark runner under `test/` are not part of this model.
- FactoryState.Get, FactoryState.GetOtherKeys and Factory.UniqueFactory.Get assume that `create()` destroys no reference and does not call back into the factory. A `create()` that releases a reference is covered by FactoryState.ReleaseDuringCreate, as a `DropRef` before `get`. Without that, "under `KeepNothingAlive` only `key` changes" is not promised for the call as a whole.
- ListFactory.UniqueFactory.Get and ListFactory.MissLeavesUniqueLive assume that `create` destroys no reference and does not call back into the factory. If `create` lets objects expire before `emplace_front`, "the list holds only live entries after a miss" no longer holds. ListFactory.ExpiryDuringCreateKeepsUnique shows that at most one live entry per key still holds.
- FactoryState.Finalize, FactoryState.ClearRetention, FactoryState.GetOtherKeys, FactoryState.RetainOtherKeys and FactoryState.DestroyOrphansAll assume that a value's destructor, run by `delete value` in `Deleter::operator()`, destroys no reference to another value the factory produced. A value that owns a `shared_ptr` to another produced value is not modelled as such. That nested release is modelled as a separate, later `DropRef`, after which `FinalizeInv` and the invariant clause of `DropRef` still give `Inv`. What is not promised is that the other value's entry survives the call that freed the first value.
- ListFactory.Memory.Release likewise assumes that freeing an object releases no other object. A nested release is one more `Shrinks` step, and ListFactory.ExpiryKeepsUnique covers any such step.
- ListFactory.UniqueFactory.Scan: plain key parts are values that own no references. A plain part that owns a `shared_ptr`, such as the `vector<shared_ptr>` of unique_factory.hpp:69-72, could free objects when its entry is erased during the scan. The model reads the heap once and keeps it fixed for the whole scan.

=== FILE: factory.dfy ===
/**
 * `UniqueFactory<Key, Value, KeepAlive>` from unique-factory/unique-factory.hpp
 * as a class. The factory inherits its retention policy, so the policy's
 * working set is a field of the factory; the objects it produced, with their
 * strong counts and deleters, are kept beside it, since their deleters write
 * back into the factory. Each method except `Orphan`, a single step of
 * `OrphanLeaked`, is proved to perform one transition of FactoryState, whose
 * properties are proved there: the constructor performs
 * `Empty`, `RunDeleter` performs `Finalize`, `Release` performs `DropRef`,
 * `Clear` performs `ClearRetention`, `Insert` performs `Retain`, `Get`
 * performs `FactoryState.Get`, `OrphanLeaked` performs `OrphanAll` on the
 * objects the cache refers to, and `Destroy` performs `FactoryState.Destroy`.
 */
module Factory {
  import Retention
  import opened SharedObjects
  import opened FactoryState

  class UniqueFactory<K(==)> {
    const policy: Retention.Policy
    var cache: map<K, ObjId>
    var objects: map<ObjId, Obj<K>>
    var workingSet: set<ObjId>
    var destroyed: bool
    var nextId: nat

    /** The factory, its objects and its policy as one value. */
    function Model(): State<K>
      reads this
    {
      State(policy, cache, objects, workingSet, destroyed, nextId)
    }

    ghost predicate Valid()
      reads this
    {
      Inv(Model())
    }

    constructor (p: Retention.Policy)
      ensures Model() == Empty(p) && Valid()
    {
      policy := p;
      cache, objects, workingSet := map[], map[], {};
      destroyed, nextId := false, 0;
    }

    /** `Deleter::operator()(value)`: erase the entry if attached, free the value. */
    method RunDeleter(o: ObjId)
      requires o in objects
      modifies this
      ensures Model() == Finalize(old(Model()), o)
    {
      var d := objects[o].deleter;
      if d.Attached? {
        cache := cache - {d.key};
      }
      objects := objects - {o};
    }

    /** One `shared_ptr` to `o` is destroyed; the last one runs the deleter.
      * A caller that releases its own reference keeps the invariant, also
      * after the factory is gone. */
    method Release(o: ObjId)
      requires o in objects
      modifies this
      ensures Model() == DropRef(old(Model()), o)
      ensures old(Valid()) && Held(old(Model()), o) >= 1 ==> Valid()
    {
      if objects[o].strong > 1 {
        objects := objects[o := objects[o].(strong := objects[o].strong - 1)];
      } else {
        RunDeleter(o);
      }
    }

    /** `KeepAlive::clear()`: `KeepSetAlive` destroys each reference it holds,
      * in whatever order the set yields them; `KeepNothingAlive` does nothing. */
    method Clear()
      requires workingSet <= objects.Keys
      modifies this
      ensures Model() == ClearRetention(old(Model()))
    {
      if policy.KeepSetAlive? {
        ghost var s0 := Model();
        var todo := workingSet;
        assert DropAll(s0, {}) == s0 by {
          assert DropAll(s0, {}).objects == s0.objects;
          assert ErasedKeys(s0, {}) == {};
        }
        while todo != {}
          invariant todo <= s0.workingSet
          invariant Model() == DropAll(s0, s0.workingSet - todo)
          decreases |todo|
        {
          var o :| o in todo;
          ghost var done := s0.workingSet - todo;
          DropAllStep(s0, done, o);
          todo := todo - {o};
          assert s0.workingSet - todo == done + {o};
          Release(o);
        }
        workingSet := {};
      }
    }

    /** `KeepAlive::insert(value)`: `KeepSetAlive` first clears a full set,
      * then holds `value`; `KeepNothingAlive` does nothing. */
    method Insert(o: ObjId)
      requires workingSet <= objects.Keys && o in objects && Held(Model(), o) >= 1
      modifies this
      ensures Model() == Retain(old(Model()), o)
    {
      match policy
      case KeepNothingAlive =>
      case KeepSetAlive(history) =>
        if |workingSet| >= history {
          Clear();
        }
        if o !in workingSet {
          workingSet := workingSet + {o};
          objects := objects[o := objects[o].(strong := objects[o].strong + 1)];
        }
    }

    /** `get(key, create)`: lock the cached weak reference, or call `create()`
      * (whose success is `createOk`), wrap the value with a deleter for `key`
      * and store it; then hand the value to the policy. */
    method Get(key: K, createOk: bool) returns (out: Outcome)
      requires Valid() && !destroyed
      modifies this
      ensures (Model(), out) == FactoryState.Get(old(Model()), key, createOk)
      ensures Valid()
    {
      ghost var s0 := Model();
      var o;
      if key in cache {
        o := cache[key];
        objects := objects[o := objects[o].(strong := objects[o].strong + 1)];
        out := Hit(o);
      } else {
        if !createOk {
          return CreateFailed;
        }
        o := nextId;
        nextId := nextId + 1;
        objects := objects[o := Obj(1, Attached(key))];
        cache := cache[key := o];
        out := Created(o);
      }
      ghost var s1 := LookupOrCreate(s0, key);
      assert Model() == s1 && o == s1.cache[key];
      Insert(o);
      assert Model() == Retain(s1, o);
    }

    /** `Deleter::orphan()` on the deleter of `o`. */
    method Orphan(o: ObjId)
      requires o in objects
      modifies this
      ensures objects == old(objects)[o := old(objects)[o].(deleter := Detached)]
      ensures cache == old(cache) && workingSet == old(workingSet)
      ensures destroyed == old(destroyed) && nextId == old(nextId)
    {
      objects := objects[o := objects[o].(deleter := Detached)];
    }

    /** The destructor's loop: orphan the deleter of every value the cache
      * still refers to. */
    method OrphanLeaked()
      requires forall k :: k in cache ==> cache[k] in objects
      modifies this
      ensures objects == OrphanAll(old(objects), Referenced(cache, cache.Keys))
      ensures cache == old(cache) && workingSet == old(workingSet)
      ensures destroyed == old(destroyed) && nextId == old(nextId)
    {
      ghost var objects0 := objects;
      var todo := cache.Keys;
      assert OrphanAll(objects0, Referenced(cache, {})) == objects0;
      while todo != {}
        invariant todo <= cache.Keys
        invariant cache == old(cache) && workingSet == old(workingSet)
        invariant destroyed == old(destroyed) && nextId == old(nextId)
        invariant objects == OrphanAll(objects0, Referenced(cache, cache.Keys - todo))
        decreases |todo|
      {
        var k :| k in todo;
        ghost var done := cache.Keys - todo;
        todo := todo - {k};
        assert cache.Keys - todo == done + {k};
        assert Referenced(cache, done + {k}) == Referenced(cache, done) + {cache[k]};
        OrphanAllStep(objects0, Referenced(cache, done), cache[k]);
        Orphan(cache[k]);
      }
    }

    /** `~UniqueFactory()`: clear the policy, then orphan the deleter of every
      * value the cache still refers to. The debug diagnostic is not modelled. */
    method Destroy()
      requires Valid() && !destroyed
      modifies this
      ensures Model() == FactoryState.Destroy(old(Model()))
      ensures Valid()
    {
      ghost var s := Model();
      Clear();
      ClearRetentionPreservesInv(s);
      if |cache| != 0 {
        OrphanLeaked();
      } else {
        assert Referenced(cache, cache.Keys) == {};
        assert objects == OrphanAll(objects, {});
      }
      destroyed := true;
      DestroyOrphansAll(s);
    }
  }
}

=== FILE: factory_state.dfy ===
/**
 * The current unique factory (a key-to-weak-reference map whose values carry
 * a deleter that erases their entry) as a state machine over values: the
 * factory's cache, the objects it produced with their strong reference counts
 * and deleters, and the working set of its retention policy. Each operation of
 * the C++ class is a function from state to state; the class in module Factory
 * is proved to perform exactly these transitions.
 *
 * Strong references are counted, not named: `strong` counts every live
 * `shared_ptr` to an object, one of which belongs to the working set when the
 * object is in it; the others belong to callers.
 */
module FactoryState {
  import opened Retention
  import opened SharedObjects

  /** A value's deleter: attached to the factory under `key`, or orphaned. */
  datatype Deleter<K> = Attached(key: K) | Detached

  /** A produced object that has not been freed yet. */
  datatype Obj<K> = Obj(strong: nat, deleter: Deleter<K>)

  datatype State<K> = State(
    policy: Policy,
    cache: map<K, ObjId>,
    objects: map<ObjId, Obj<K>>,
    workingSet: set<ObjId>,
    destroyed: bool,
    nextId: nat)

  /** A freshly constructed factory. */
  function Empty<K>(p: Policy): (s: State<K>)
    ensures Inv(s) && s.cache == map[] && !s.destroyed
  {
    State(p, map[], map[], {}, false, 0)
  }

  /** Strong references to `o` held by callers (not by the working set). */
  function Held<K>(s: State<K>, o: ObjId): int
    requires o in s.objects
  {
    s.objects[o].strong - (if o in s.workingSet then 1 else 0)
  }

  /** The factory's invariant. While the factory lives, cache entries and
    * attached deleters are in one-to-one correspondence, so each key has one
    * live object and each live object is reachable from its own key; after
    * destruction every deleter is orphaned and the policy holds nothing. */
  ghost predicate Inv<K>(s: State<K>)
  {
    && (forall o :: o in s.objects ==> o < s.nextId && s.objects[o].strong >= 1)
    && s.workingSet <= s.objects.Keys
    && |s.workingSet| <= Capacity(s.policy)
    && (s.destroyed ==> s.workingSet == {})
    && (!s.destroyed ==> forall k :: k in s.cache ==>
          s.cache[k] in s.objects && s.objects[s.cache[k]].deleter == Attached(k))
    && (forall o :: o in s.objects && s.objects[o].deleter.Attached? ==>
          !s.destroyed && s.objects[o].deleter.key in s.cache && s.cache[s.objects[o].deleter.key] == o)
    && (!s.destroyed ==> forall o :: o in s.objects ==> s.objects[o].deleter.Attached?)
  }

  // ---------------------------------------------------------------------
  // Deleter

  /** `Deleter::operator()`: an attached deleter erases its key from the
    * cache, an orphaned one leaves the cache alone; the object is freed. */
  function Finalize<K>(s: State<K>, o: ObjId): (r: State<K>)
    requires o in s.objects
    ensures r.objects == s.objects - {o}
    ensures s.objects[o].deleter.Attached? ==>
              r.cache == s.cache - {s.objects[o].deleter.key}
    ensures s.objects[o].deleter.Detached? ==> r.cache == s.cache
    ensures r.policy == s.policy && r.workingSet == s.workingSet
    ensures r.destroyed == s.destroyed && r.nextId == s.nextId
  {
    var d := s.objects[o].deleter;
    s.(cache := if d.Attached? then s.cache - {d.key} else s.cache,
       objects := s.objects - {o})
  }

  /** Destruction of one strong reference to `o`; the last one runs the deleter. */
  function DropRef<K>(s: State<K>, o: ObjId): (r: State<K>)
    requires o in s.objects
    ensures Inv(s) && Held(s, o) >= 1 ==> Inv(r)
    ensures r.policy == s.policy && r.workingSet == s.workingSet
    ensures r.destroyed == s.destroyed && r.nextId == s.nextId
  {
    FinalizeInv(s, o);
    var ob := s.objects[o];
    if ob.strong > 1 then s.(objects := s.objects[o := ob.(strong := ob.strong - 1)])
    else Finalize(s, o)
  }

  /** The deleter of a value erases exactly the entry of that value and no
    * other (never a different generation's), and frees the value. */
  lemma FinalizeErasesOwnEntry<K>(s: State<K>, o: ObjId)
    requires Inv(s) && o in s.objects
    ensures o !in Finalize(s, o).objects
    ensures Finalize(s, o).objects == s.objects - {o}
    ensures !s.destroyed ==> Finalize(s, o).cache == map k | k in s.cache && s.cache[k] != o :: s.cache[k]
    ensures s.destroyed ==> Finalize(s, o).cache == s.cache
  {
    var r := Finalize(s, o);
    if !s.destroyed {
      var k0 := s.objects[o].deleter.key;
      var m := map k | k in s.cache && s.cache[k] != o :: s.cache[k];
      assert r.cache.Keys == m.Keys by {
        forall k | k in s.cache
          ensures k in r.cache <==> k in m
        {
          if s.cache[k] == o {
            assert s.objects[o].deleter == Attached(k);
          }
        }
      }
    }
  }

  /** Running the deleter when a caller releases the last reference keeps
    * the invariant. */
  lemma FinalizeInv<K>(s: State<K>, o: ObjId)
    requires o in s.objects
    ensures Inv(s) && Held(s, o) >= 1 && s.objects[o].strong <= 1 ==> Inv(Finalize(s, o))
  {
    var r := Finalize(s, o);
    if Inv(s) && Held(s, o) >= 1 && s.objects[o].strong <= 1 {
      FinalizeErasesOwnEntry(s, o);
      assert o !in s.workingSet;
      if !s.destroyed {
        forall k | k in r.cache
          ensures r.cache[k] in r.objects && r.objects[r.cache[k]].deleter == Attached(k)
        {
          assert s.cache[k] != o;
        }
      }
    }
  }

  /** After destruction, releasing references never touches the cache. */
  lemma ReleaseAfterDestroy<K>(s: State<K>, o: ObjId)
    requires Inv(s) && s.destroyed && o in s.objects
    ensures DropRef(s, o).cache == s.cache
    ensures s.objects[o].strong == 1 ==> o !in DropRef(s, o).objects
  {
    assert s.objects[o].deleter.Detached?;
  }

  // ---------------------------------------------------------------------
  // Retention policy and its strong references

  /** `o` loses a working-set reference that was its last one. */
  predicate FreedBy<K>(s: State<K>, done: set<ObjId>, o: ObjId)
    requires o in s.objects
  {
    o in done && s.objects[o].strong <= 1
  }

  /** The keys whose entries the deleters of the objects freed by dropping
    * one reference to each of `done` erase. */
  function ErasedKeys<K>(s: State<K>, done: set<ObjId>): set<K>
    requires done <= s.objects.Keys
  {
    set o | o in done && s.objects[o].strong <= 1 && s.objects[o].deleter.Attached? :: s.objects[o].deleter.key
  }

  /** Dropping one strong reference to each of `done`, in any order. */
  function DropAll<K>(s: State<K>, done: set<ObjId>): State<K>
    requires done <= s.objects.Keys
  {
    s.(objects := map o | o in s.objects && !FreedBy(s, done, o) ::
                    if o in done then s.objects[o].(strong := s.objects[o].strong - 1) else s.objects[o],
       cache := s.cache - ErasedKeys(s, done))
  }

  /** Dropping one more reference extends `DropAll` by one `DropRef`: the
    * order in which a set's references are destroyed does not matter. */
  lemma DropAllStep<K>(s: State<K>, done: set<ObjId>, o: ObjId)
    requires done <= s.objects.Keys && o in s.objects && o !in done
    ensures o in DropAll(s, done).objects
    ensures DropAll(s, done + {o}) == DropRef(DropAll(s, done), o)
  {
    var a := DropAll(s, done + {o});
    var b := DropRef(DropAll(s, done), o);
    assert a.objects == b.objects;
    var d := s.objects[o].deleter;
    if s.objects[o].strong <= 1 && d.Attached? {
      assert ErasedKeys(s, done + {o}) == ErasedKeys(s, done) + {d.key};
    } else {
      assert ErasedKeys(s, done + {o}) == ErasedKeys(s, done);
    }
  }

  /** `KeepAlive::clear()`: the working set is emptied and each of its
    * references destroyed. `KeepNothingAlive::clear()` changes nothing. */
  function ClearRetention<K>(s: State<K>): (r: State<K>)
    requires s.workingSet <= s.objects.Keys
    ensures r.workingSet == Clear(s.policy, s.workingSet)
    ensures forall o :: o in s.objects && Held(s, o) >= 1 ==>
              o in r.objects && Held(r, o) == Held(s, o) && r.objects[o].deleter == s.objects[o].deleter
    ensures r.objects.Keys <= s.objects.Keys && r.cache.Keys <= s.cache.Keys
    ensures forall k :: k in r.cache ==> r.cache[k] == s.cache[k]
    ensures r.policy == s.policy && r.destroyed == s.destroyed && r.nextId == s.nextId
  {
    match s.policy
    case KeepNothingAlive => s
    case KeepSetAlive(_) => DropAll(s, s.workingSet).(workingSet := {})
  }

  /** Clearing the policy keeps the invariant: an entry disappears exactly
    * when the policy held the last reference to its object. */
  lemma ClearRetentionPreservesInv<K>(s: State<K>)
    requires Inv(s) && !s.destroyed
    ensures Inv(ClearRetention(s))
    ensures forall k :: k in s.cache ==>
              (k in ClearRetention(s).cache <==> Held(s, s.cache[k]) >= 1)
  {
    var r := ClearRetention(s);
    if s.policy.KeepSetAlive? {
      forall k | k in s.cache
        ensures k in r.cache <==> Held(s, s.cache[k]) >= 1
      {
        var o := s.cache[k];
        if Held(s, o) < 1 {
          assert k in ErasedKeys(s, s.workingSet);
        }
      }
      forall o | o in r.objects && r.objects[o].deleter.Attached?
        ensures r.objects[o].deleter.key in r.cache && r.cache[r.objects[o].deleter.key] == o
      {
        var k := s.objects[o].deleter.key;
        assert s.cache[k] == o && Held(s, o) >= 1;
      }
    }
  }

  /** `KeepAlive::insert(o)` on the factory: the working set becomes
    * `Insert(policy, workingSet, o)`; a full set first releases its references,
    * and a newly held value gains the working set's reference. */
  function Retain<K>(s: State<K>, o: ObjId): (r: State<K>)
    requires s.workingSet <= s.objects.Keys && o in s.objects && Held(s, o) >= 1
    ensures r.workingSet == Insert(s.policy, s.workingSet, o)
    ensures o in r.objects && Held(r, o) == Held(s, o)
    ensures r.policy == s.policy && r.destroyed == s.destroyed && r.nextId == s.nextId
  {
    match s.policy
    case KeepNothingAlive => s
    case KeepSetAlive(history) =>
      var s1 := if |s.workingSet| >= history then ClearRetention(s) else s;
      if o in s1.workingSet then s1
      else s1.(workingSet := s1.workingSet + {o},
               objects := s1.objects[o := s1.objects[o].(strong := s1.objects[o].strong + 1)])
  }

  // ---------------------------------------------------------------------
  // get

  /** `UniqueFactory::get(key, create)`; `createOk` is whether `create()`
    * returns a value (it is called only on a miss). */
  function Get<K>(s: State<K>, key: K, createOk: bool): (r: (State<K>, Outcome))
    requires Inv(s) && !s.destroyed
    ensures key in s.cache ==> r.1 == Hit(s.cache[key])
    ensures key !in s.cache ==> r.1 == if createOk then Created(s.nextId) else CreateFailed
    ensures r.1 == CreateFailed ==> r.0 == s
    ensures Inv(r.0) && r.0.policy == s.policy && !r.0.destroyed
    ensures r.0.nextId == if r.1.Created? then s.nextId + 1 else s.nextId
  {
    if key !in s.cache && !createOk then
      (s, CreateFailed)
    else
      var s1 := LookupOrCreate(s, key);
      LookupOrCreateInv(s, key);
      RetainPreservesInv(s1, key);
      var o := s1.cache[key];
      (Retain(s1, o), if key in s.cache then Hit(o) else Created(o))
  }

  /** The lookup part of `get`: on a hit the weak reference is locked (one
    * more strong reference), on a miss the created object is wrapped with a
    * deleter for `key` and stored under `key`. */
  function LookupOrCreate<K>(s: State<K>, key: K): (s1: State<K>)
    requires Inv(s) && !s.destroyed
    ensures s1.workingSet == s.workingSet && s1.workingSet <= s1.objects.Keys
    ensures key in s1.cache && s1.cache[key] in s1.objects && Held(s1, s1.cache[key]) >= 1
    ensures key in s.cache ==> s1.cache[key] == s.cache[key]
    ensures key !in s.cache ==> s1.cache[key] == s.nextId
  {
    if key in s.cache then
      var o := s.cache[key];
      s.(objects := s.objects[o := s.objects[o].(strong := s.objects[o].strong + 1)])
    else
      s.(cache := s.cache[key := s.nextId],
         objects := s.objects[s.nextId := Obj(1, Attached(key))],
         nextId := s.nextId + 1)
  }

  lemma LookupOrCreateInv<K>(s: State<K>, key: K)
    requires Inv(s) && !s.destroyed
    ensures Inv(LookupOrCreate(s, key))
    ensures var s1 := LookupOrCreate(s, key); key in s1.cache && Held(s1, s1.cache[key]) >= 1
  {
    var s1 := LookupOrCreate(s, key);
    if key !in s.cache {
      forall o | o in s1.objects && s1.objects[o].deleter.Attached?
        ensures s1.cache[s1.objects[o].deleter.key] == o
      {
        if o != s.nextId {
          assert s.cache[s.objects[o].deleter.key] == o;
        }
      }
    }
  }

  /** Retention keeps the invariant, and with it the entry of the value just
    * returned (which the caller holds). */
  lemma RetainPreservesInv<K>(s: State<K>, key: K)
    requires Inv(s) && !s.destroyed && key in s.cache && Held(s, s.cache[key]) >= 1
    ensures Inv(Retain(s, s.cache[key]))
    ensures key in Retain(s, s.cache[key]).cache && Retain(s, s.cache[key]).cache[key] == s.cache[key]
  {
    var o := s.cache[key];
    if s.policy.KeepSetAlive? {
      var s1 := if |s.workingSet| >= s.policy.history then ClearRetention(s) else s;
      if |s.workingSet| >= s.policy.history {
        ClearRetentionPreservesInv(s);
      }
      assert Inv(s1) && key in s1.cache && s1.cache[key] == o;
      InsertBounded(s.policy, s.workingSet, o);
      if o !in s1.workingSet {
        var r := s1.(workingSet := s1.workingSet + {o},
                     objects := s1.objects[o := s1.objects[o].(strong := s1.objects[o].strong + 1)]);
        assert Retain(s, o) == r;
        AddRetainedInv(s1, o);
      } else {
        assert Retain(s, o) == s1;
      }
    }
  }

  /** Adding a value to the working set, with the reference that comes with it. */
  lemma AddRetainedInv<K>(s: State<K>, o: ObjId)
    requires Inv(s) && !s.destroyed && o in s.objects && o !in s.workingSet
    requires |s.workingSet + {o}| <= Capacity(s.policy)
    ensures Inv(s.(workingSet := s.workingSet + {o},
                   objects := s.objects[o := s.objects[o].(strong := s.objects[o].strong + 1)]))
  {
  }

  /** A hit returns the cached object without calling `create`, and the
    * caller gains a reference to it; afterwards `key` still maps to it. */
  lemma GetHit<K>(s: State<K>, key: K, createOk: bool)
    requires Inv(s) && !s.destroyed && key in s.cache
    ensures var (r, out) := Get(s, key, createOk);
      && out == Hit(s.cache[key])
      && s.cache[key] in s.objects
      && key in r.cache && r.cache[key] == s.cache[key]
      && Held(r, s.cache[key]) == Held(s, s.cache[key]) + 1
      && r.workingSet == Insert(s.policy, s.workingSet, s.cache[key])
      && r.nextId == s.nextId
  {
    LookupOrCreateInv(s, key);
    RetainPreservesInv(LookupOrCreate(s, key), key);
  }

  /** A miss with a successful `create()` maps `key` to a fresh object held
    * once by the caller, with an attached deleter for `key`. */
  lemma GetMiss<K>(s: State<K>, key: K)
    requires Inv(s) && !s.destroyed && key !in s.cache
    ensures var (r, out) := Get(s, key, true);
      && out == Created(s.nextId)
      && s.nextId !in s.objects && r.nextId == s.nextId + 1
      && key in r.cache && r.cache[key] == s.nextId
      && r.objects[s.nextId].deleter == Attached(key)
      && Held(r, s.nextId) == 1
      && r.workingSet == Insert(s.policy, s.workingSet, s.nextId)
  {
    LookupOrCreateInv(s, key);
    RetainPreservesInv(LookupOrCreate(s, key), key);
  }

  /** Entries of other keys are untouched by `get`, except that an entry
    * vanishes when the retention policy, clearing a full working set, drops
    * the last reference to its object. With `KeepNothingAlive` the cache
    * changes only at `key`. */
  lemma GetOtherKeys<K>(s: State<K>, key: K, createOk: bool)
    requires Inv(s) && !s.destroyed
    ensures var (r, out) := Get(s, key, createOk);
      && (forall k :: k != key && k in r.cache ==> k in s.cache && r.cache[k] == s.cache[k])
      && (forall k :: k != key && k in s.cache && k !in r.cache ==>
            s.cache[k] in s.workingSet && Held(s, s.cache[k]) == 0)
      && (s.policy.KeepNothingAlive? && out != CreateFailed ==> r.cache == s.cache[key := out.obj])
  {
    if key in s.cache || createOk {
      LookupOrCreateInv(s, key);
      var s1 := LookupOrCreate(s, key);
      var o := s1.cache[key];
      RetainOtherKeys(s1, o);
      var r := Get(s, key, createOk).0;
      assert r == Retain(s1, o);
      forall k | k != key && k in s.cache && k !in r.cache
        ensures s.cache[k] in s.workingSet && Held(s, s.cache[k]) == 0
      {
        assert s1.cache[k] == s.cache[k];
        assert s.objects[s.cache[k]].deleter == Attached(k);
        assert s.cache[k] != o;
      }
    }
  }

  /** `create()` is user code that runs inside `get` after the lookup missed.
    * Should it destroy a reference to another produced object, that release
    * happens before the new object is stored; a release never adds an entry,
    * so `key` is still missing, and the call as a whole is `DropRef` followed
    * by `Get`: it creates the same object, and an entry whose object the
    * release freed does not come back. */
  lemma ReleaseDuringCreate<K>(s: State<K>, key: K, o: ObjId)
    requires Inv(s) && !s.destroyed && key !in s.cache
    requires o in s.objects && Held(s, o) >= 1
    ensures var s2 := DropRef(s, o);
      && Inv(s2) && !s2.destroyed && key !in s2.cache
      && Get(s2, key, true).1 == Created(s.nextId)
      && (s.objects[o].strong == 1 ==> s.objects[o].deleter.key !in Get(s2, key, true).0.cache)
  {
    var s2 := DropRef(s, o);
    assert s2.cache.Keys <= s.cache.Keys;
    if s.objects[o].strong == 1 {
      var k := s.objects[o].deleter.key;
      assert k != key;
      assert k !in s2.cache;
      GetOtherKeys(s2, key, true);
    }
  }

  /** What retention does to the cache: it only loses entries whose object
    * the working set held last. */
  lemma RetainOtherKeys<K>(s: State<K>, o: ObjId)
    requires Inv(s) && !s.destroyed && o in s.objects && Held(s, o) >= 1
    ensures var r := Retain(s, o);
      && (forall k :: k in r.cache ==> k in s.cache && r.cache[k] == s.cache[k])
      && (forall k :: k in s.cache && k !in r.cache ==> s.cache[k] in s.workingSet && Held(s, s.cache[k]) == 0)
      && (s.policy.KeepNothingAlive? ==> r.cache == s.cache)
  {
    if s.policy.KeepSetAlive? && |s.workingSet| >= s.policy.history {
      ClearRetentionPreservesInv(s);
    }
  }

  // ---------------------------------------------------------------------
  // Destruction

  /** `Deleter::orphan()` applied to the deleters of the objects in `leaked`. */
  function OrphanAll<K>(objects: map<ObjId, Obj<K>>, leaked: set<ObjId>): (r: map<ObjId, Obj<K>>)
    ensures r.Keys == objects.Keys
    ensures forall o :: o in r ==> r[o].strong == objects[o].strong
  {
    map o | o in objects :: if o in leaked then objects[o].(deleter := Detached) else objects[o]
  }

  /** Orphaning one more object extends `OrphanAll` by one `orphan()`. */
  lemma OrphanAllStep<K>(objects: map<ObjId, Obj<K>>, leaked: set<ObjId>, o: ObjId)
    requires o in objects
    ensures var m := OrphanAll(objects, leaked);
      OrphanAll(objects, leaked + {o}) == m[o := m[o].(deleter := Detached)]
  {
    var m := OrphanAll(objects, leaked);
    var m' := OrphanAll(objects, leaked + {o});
    assert m'.Keys == m[o := m[o].(deleter := Detached)].Keys;
  }

  /** The objects the cache still refers to, found through the keys in `keys`. */
  function Referenced<K>(cache: map<K, ObjId>, keys: set<K>): set<ObjId>
    requires keys <= cache.Keys
  {
    set k | k in keys :: cache[k]
  }

  /** `~UniqueFactory()`: clear the policy, then orphan the deleter of every
    * object still in the cache. */
  function Destroy<K>(s: State<K>): (r: State<K>)
    requires s.workingSet <= s.objects.Keys
    ensures r.destroyed && r.workingSet == Clear(s.policy, s.workingSet)
    ensures r.cache.Keys <= s.cache.Keys && r.objects.Keys <= s.objects.Keys
    ensures forall k :: k in r.cache && r.cache[k] in r.objects ==>
              r.objects[r.cache[k]].deleter == Detached
  {
    var s1 := ClearRetention(s);
    s1.(objects := OrphanAll(s1.objects, Referenced(s1.cache, s1.cache.Keys)), destroyed := true)
  }

  /** After destruction every outstanding deleter is orphaned, the policy
    * holds nothing, and exactly the objects callers still hold survive,
    * with their counts. */
  lemma DestroyOrphansAll<K>(s: State<K>)
    requires Inv(s) && !s.destroyed
    ensures var r := Destroy(s);
      && Inv(r) && r.destroyed && r.workingSet == {}
      && (forall o :: o in r.objects ==> r.objects[o].deleter == Detached)
      && (forall o :: o in s.objects ==>
            (o in r.objects <==> Held(s, o) >= 1) &&
            (o in r.objects ==> r.objects[o].strong == Held(s, o)))
  {
    var s1 := ClearRetention(s);
    ClearRetentionPreservesInv(s);
    var r := Destroy(s);
    forall o | o in r.objects
      ensures r.objects[o].deleter == Detached
    {
      var k := s1.objects[o].deleter.key;
      assert s1.cache[k] == o;
      assert o in Referenced(s1.cache, s1.cache.Keys);
    }
    if s.policy.KeepNothingAlive? {
      assert s.workingSet == {};
    }
  }

  // ---------------------------------------------------------------------
  // Whole-run properties

  /** Identity under liveness: while any reference keeps a produced object
    * alive, `get` for its key returns that same object and does not create. */
  lemma LiveObjectIsReturned<K>(s: State<K>, o: ObjId, createOk: bool)
    requires Inv(s) && !s.destroyed && o in s.objects
    ensures Get(s, s.objects[o].deleter.key, createOk).1 == Hit(o)
  {
  }

  /** Reclamation without retention: with `KeepNothingAlive`, once the last
    * reference to a value is released, `get` for its key creates anew. */
  lemma ReclaimedThenRecreated<K>(s: State<K>, key: K)
    requires Inv(s) && !s.destroyed && s.policy.KeepNothingAlive?
    requires key in s.cache && s.objects[s.cache[key]].strong == 1
    ensures var o := s.cache[key];
      var s2 := DropRef(s, o);
      && o !in s2.objects && key !in s2.cache
      && Get(s2, key, true).1 == Created(s.nextId) && s.nextId != o
  {
    var o := s.cache[key];
    FinalizeErasesOwnEntry(s, o);
  }

  /** Construction failure is atomic and retried: a failed `create()` leaves
    * the factory as it was, and the next `get` for the key calls `create`
    * again. */
  lemma FailedCreateIsRetried<K>(s: State<K>, key: K)
    requires Inv(s) && !s.destroyed && key !in s.cache
    ensures Get(s, key, false) == (s, CreateFailed)
    ensures Get(Get(s, key, false).0, key, true).1 == Created(s.nextId)
  {
  }

  /** With `KeepSetAlive`, a `get` that finds the working set full releases
    * every value it held: one that no caller holds is freed and its entry
    * erased, so a later `get` for its key creates anew. */
  lemma FullSetReleasesAll<K>(s: State<K>, key: K, createOk: bool, o: ObjId)
    requires Inv(s) && !s.destroyed && s.policy.KeepSetAlive?
    requires |s.workingSet| >= s.policy.history
    requires o in s.workingSet && Held(s, o) == 0 && s.objects[o].deleter.key != key
    requires key in s.cache || createOk
    ensures o !in Get(s, key, createOk).0.objects
    ensures s.objects[o].deleter.key !in Get(s, key, createOk).0.cache
  {
    var s1 := LookupOrCreate(s, key);
    LookupOrCreateInv(s, key);
    var k := s.objects[o].deleter.key;
    assert s1.objects[o] == s.objects[o] && s1.cache[k] == o;
    ClearRetentionPreservesInv(s1);
    assert !FreedBy(s1, s1.workingSet, o) ==> o in s1.objects;
  }

  /** A value the working set still holds survives the release of its last
    * caller reference, and `get` for its key keeps returning it. */
  lemma RetainedSurvivesRelease<K>(s: State<K>, key: K, createOk: bool)
    requires Inv(s) && !s.destroyed && key in s.cache
    requires s.cache[key] in s.workingSet && Held(s, s.cache[key]) == 1
    ensures var s2 := DropRef(s, s.cache[key]);
      && Inv(s2) && s2.cache == s.cache && s2.workingSet == s.workingSet
      && Held(s2, s.cache[key]) == 0 && s2.nextId == s.nextId
      && Get(s2, key, createOk).1 == Hit(s.cache[key])
  {
  }

  /** A retained value whose last caller reference is released is reclaimed
    * when a `get` for another key finds the working set full, and the next
    * `get` for its own key creates a new value. */
  lemma DisplacedThenRecreated<K>(s: State<K>, key: K, other: K)
    requires Inv(s) && !s.destroyed && s.policy.KeepSetAlive?
    requires |s.workingSet| >= s.policy.history
    requires key in s.cache && s.cache[key] in s.workingSet && Held(s, s.cache[key]) == 1
    requires other !in s.cache && other != key
    ensures Get(DropRef(s, s.cache[key]), other, true).1 == Created(s.nextId)
    ensures Get(Get(DropRef(s, s.cache[key]), other, true).0, key, true).1 == Created(s.nextId + 1)
  {
    var o := s.cache[key];
    RetainedSurvivesRelease(s, key, true);
    var s4 := DropRef(s, o);
    assert s4.cache[key] == o && s4.objects[o].deleter == Attached(key);
    assert o in s4.workingSet && |s4.workingSet| >= s4.policy.history;
    GetMiss(s4, other);
    FullSetReleasesAll(s4, other, true, o);
    var s5 := Get(s4, other, true).0;
    assert Inv(s5) && !s5.destroyed && key !in s5.cache && s5.nextId == s.nextId + 1;
    GetMiss(s5, key);
  }

  /** The bounded-retention scenario with `KeepSetAlive(1)`: a value
    * survives the release of its only caller reference while retained, and
    * is reclaimed once `get` for another key displaces it. */
  lemma KeepOneScenario()
    ensures
      var s0 := Empty<int>(KeepSetAlive(1));
      var (s1, a) := Get(s0, 0, true);
      var s2 := DropRef(s1, a.obj);
      var (s3, b) := Get(s2, 0, true);
      var s4 := DropRef(s3, b.obj);
      var (s5, c) := Get(s4, 1, true);
      var (s6, d) := Get(s5, 0, true);
      && a == Created(0) && b == Hit(0) && c == Created(1) && d == Created(2)
  {
    var s0 := Empty<int>(KeepSetAlive(1));
    GetMiss(s0, 0);
    GetOtherKeys(s0, 0, true);
    var (s1, a) := Get(s0, 0, true);
    assert s1.workingSet == {0} && 1 !in s1.cache;
    RetainedSurvivesRelease(s1, 0, true);
    var s2 := DropRef(s1, 0);
    assert 1 !in s2.cache && Held(s2, 0) == 0;
    GetHit(s2, 0, true);
    GetOtherKeys(s2, 0, true);
    var (s3, b) := Get(s2, 0, true);
    assert s3.workingSet == {0} && s3.cache[0] == 0 && s3.nextId == 1;
    assert Held(s3, 0) == 1 && 1 !in s3.cache;
    KeepOneTail(s3);
  }

  /** The second half of `KeepOneScenario`, from the state after the hit. */
  lemma KeepOneTail(s3: State<int>)
    requires Inv(s3) && !s3.destroyed && s3.policy == KeepSetAlive(1)
    requires s3.workingSet == {0} && 0 in s3.cache && s3.cache[0] == 0 && Held(s3, 0) == 1
    requires 1 !in s3.cache && s3.nextId == 1
    ensures var s4 := DropRef(s3, 0);
      var (s5, c) := Get(s4, 1, true);
      var (s6, d) := Get(s5, 0, true);
      c == Created(1) && d == Created(2)
  {
    DisplacedThenRecreated(s3, 0, 1);
  }
}

=== FILE: list_factory.dfy ===
/**
 * The earlier unique factory of unique_factory.hpp: a list of (weak key, weak
 * value) pairs. `get` walks the list, erasing every entry whose key has a dead
 * part or whose value has expired, returns the first live entry whose key
 * equals the requested one, and otherwise creates a value and puts the new
 * pair at the front.
 */
module ListFactory {
  import opened SharedObjects
  import opened WeakKeys

  datatype Option<T> = None | Some(value: T)

  /** One node of the cache list. */
  datatype Entry<P> = Entry(key: Key<P>, value: ObjId)

  /** An entry the scan keeps: its key is valid and its value has not expired. */
  predicate Live<P>(h: Heap<P>, e: Entry<P>): (r: bool)
    ensures r <==> e.value in h && forall i :: 0 <= i < |e.key| && e.key[i].Weak? ==> e.key[i].ref in h
  {
    ValidKeyIffAllAlive(h, e.key);
    IsValidKey(h, e.key) && e.value in h
  }

  /** An entry the scan returns for `key`. */
  predicate Matches<P(==)>(h: Heap<P>, e: Entry<P>, key: Key<P>)
    requires IsValidKey(h, key)
  {
    Live(h, e) && Eq(h, e.key, key)
  }

  // ---------------------------------------------------------------------
  // Pruning

  /** The entries of `s` that survive pruning, in their original order. */
  function Prune<P>(h: Heap<P>, s: seq<Entry<P>>): (r: seq<Entry<P>>)
    ensures |r| <= |s|
    ensures forall i :: 0 <= i < |r| ==> Live(h, r[i])
    decreases |s|
  {
    if s == [] then []
    else Prune(h, s[..|s| - 1]) + (if Live(h, s[|s| - 1]) then [s[|s| - 1]] else [])
  }

  /** Pruning keeps exactly the live entries. */
  lemma {:induction false} PruneMembership<P>(h: Heap<P>, s: seq<Entry<P>>, e: Entry<P>)
    ensures e in Prune(h, s) <==> e in s && Live(h, e)
    decreases |s|
  {
    if s != [] {
      PruneMembership(h, s[..|s| - 1], e);
      assert s == s[..|s| - 1] + [s[|s| - 1]];
    }
  }

  /** Pruning works segment by segment, so survivors keep their relative order. */
  lemma {:induction false} PruneAppend<P>(h: Heap<P>, a: seq<Entry<P>>, b: seq<Entry<P>>)
    ensures Prune(h, a + b) == Prune(h, a) + Prune(h, b)
    decreases |b|
  {
    if b == [] {
      assert a + b == a;
    } else {
      assert (a + b)[..|a + b| - 1] == a + b[..|b| - 1];
      PruneAppend(h, a, b[..|b| - 1]);
    }
  }

  /** Pruning an already pruned list changes nothing. */
  lemma {:induction false} PruneIdempotent<P>(h: Heap<P>, s: seq<Entry<P>>)
    ensures Prune(h, Prune(h, s)) == Prune(h, s)
    decreases |s|
  {
    if s != [] {
      var init, last := s[..|s| - 1], s[|s| - 1];
      var tail := if Live(h, last) then [last] else [];
      PruneAppend(h, Prune(h, init), tail);
      PruneIdempotent(h, init);
      assert Prune(h, tail) == tail by {
        if Live(h, last) {
          assert tail[..0] == [];
        }
      }
    }
  }

  /** The scan's step: entry `j` is kept exactly when it is live. */
  lemma PruneStep<P>(h: Heap<P>, s: seq<Entry<P>>, j: nat)
    requires j < |s|
    ensures Live(h, s[j]) ==> Prune(h, s[..j + 1]) == Prune(h, s[..j]) + [s[j]]
    ensures !Live(h, s[j]) ==> Prune(h, s[..j + 1]) == Prune(h, s[..j])
  {
    assert s[..j + 1][..j] == s[..j];
  }

  // ---------------------------------------------------------------------
  // Matching

  /** The index of the first live entry whose key equals `key`, or `|s|`. */
  function FirstMatch<P(==)>(h: Heap<P>, s: seq<Entry<P>>, key: Key<P>): (r: nat)
    requires IsValidKey(h, key)
    ensures r <= |s|
    ensures r < |s| ==> Matches(h, s[r], key)
    ensures forall i :: 0 <= i < r ==> !Matches(h, s[i], key)
    decreases |s|
  {
    if s == [] then 0
    else if Matches(h, s[0], key) then 0
    else 1 + FirstMatch(h, s[1..], key)
  }

  /** No entry before index `j` matches `key`. */
  ghost predicate NoMatchBefore<P>(h: Heap<P>, s: seq<Entry<P>>, key: Key<P>, j: nat)
    requires IsValidKey(h, key) && j <= |s|
    decreases j
  {
    j == 0 || (NoMatchBefore(h, s, key, j - 1) && !Matches(h, s[j - 1], key))
  }

  /** The first match is at `j` when nothing before `j` matches and `j` is
    * the end of the list or a match. */
  lemma {:induction false} FirstMatchAt<P>(h: Heap<P>, s: seq<Entry<P>>, key: Key<P>, j: nat)
    requires IsValidKey(h, key) && j <= |s|
    requires NoMatchBefore(h, s, key, j)
    requires j < |s| ==> Matches(h, s[j], key)
    ensures FirstMatch(h, s, key) == j
    decreases j
  {
    if j > 0 {
      NoMatchShift(h, s, key, j);
      assert j < |s| ==> s[1..][j - 1] == s[j];
      FirstMatchAt(h, s[1..], key, j - 1);
    }
  }

  lemma {:induction false} NoMatchShift<P>(h: Heap<P>, s: seq<Entry<P>>, key: Key<P>, j: nat)
    requires IsValidKey(h, key) && 0 < j <= |s|
    requires NoMatchBefore(h, s, key, j)
    ensures !Matches(h, s[0], key) && NoMatchBefore(h, s[1..], key, j - 1)
    decreases j
  {
    if j > 1 {
      NoMatchShift(h, s, key, j - 1);
      assert s[1..][j - 2] == s[j - 1];
    }
  }

  /** The state of the scan before entry `j` of the original list `s`: the
    * list is the pruned prefix `done` followed by the unvisited rest, and no
    * entry visited so far matched `key`. */
  ghost predicate Scanned<P>(h: Heap<P>, s: seq<Entry<P>>, key: Key<P>, j: nat, done: seq<Entry<P>>, c: seq<Entry<P>>)
    requires IsValidKey(h, key)
  {
    j <= |s| && done == Prune(h, s[..j]) && c == done + s[j..] && NoMatchBefore(h, s, key, j)
  }

  lemma ScanAt<P>(h: Heap<P>, s: seq<Entry<P>>, key: Key<P>, j: nat, done: seq<Entry<P>>, c: seq<Entry<P>>)
    requires IsValidKey(h, key) && Scanned(h, s, key, j, done, c) && j < |s|
    ensures |done| < |c| && c[|done|] == s[j]
  {
  }

  /** Erasing a dead entry advances the scan. */
  lemma ScanErase<P>(h: Heap<P>, s: seq<Entry<P>>, key: Key<P>, j: nat, done: seq<Entry<P>>, c: seq<Entry<P>>)
    requires IsValidKey(h, key) && Scanned(h, s, key, j, done, c) && j < |s| && !Live(h, s[j])
    ensures Scanned(h, s, key, j + 1, done, c[..|done|] + c[|done| + 1..])
  {
    PruneStep(h, s, j);
    assert c[|done| + 1..] == s[j + 1..];
  }

  /** Passing a live entry that does not match advances the scan. */
  lemma ScanPass<P>(h: Heap<P>, s: seq<Entry<P>>, key: Key<P>, j: nat, done: seq<Entry<P>>, c: seq<Entry<P>>)
    requires IsValidKey(h, key) && Scanned(h, s, key, j, done, c) && j < |s|
    requires Live(h, s[j]) && !Matches(h, s[j], key)
    ensures Scanned(h, s, key, j + 1, done + [s[j]], c)
  {
    PruneStep(h, s, j);
    assert c == (done + [s[j]]) + s[j + 1..];
  }

  /** The scan stops at the end of the list or at a match, which is then
    * the first match. */
  lemma ScanDone<P>(h: Heap<P>, s: seq<Entry<P>>, key: Key<P>, j: nat, done: seq<Entry<P>>, c: seq<Entry<P>>)
    requires IsValidKey(h, key) && Scanned(h, s, key, j, done, c)
    requires j < |s| ==> Matches(h, s[j], key)
    ensures FirstMatch(h, s, key) == j
    ensures c == Prune(h, s[..j]) + s[j..] && |done| == |Prune(h, s[..j])|
  {
    FirstMatchAt(h, s, key, j);
  }

  // ---------------------------------------------------------------------
  // Uniqueness

  /** The number of live entries of `s` whose key has the targets `t`. */
  function CountLive<P(==)>(h: Heap<P>, s: seq<Entry<P>>, t: seq<P>): nat
    decreases |s|
  {
    if s == [] then 0
    else (if Live(h, s[0]) && Targets(h, s[0].key) == t then 1 else 0) + CountLive(h, s[1..], t)
  }

  /** At most one live entry per key. */
  ghost predicate UniqueLive<P(!new)>(h: Heap<P>, s: seq<Entry<P>>)
  {
    forall t :: CountLive(h, s, t) <= 1
  }

  lemma {:induction false} CountAppend<P>(h: Heap<P>, a: seq<Entry<P>>, b: seq<Entry<P>>, t: seq<P>)
    ensures CountLive(h, a + b, t) == CountLive(h, a, t) + CountLive(h, b, t)
    decreases |a|
  {
    if a == [] {
      assert a + b == b;
    } else {
      assert (a + b)[1..] == a[1..] + b;
      CountAppend(h, a[1..], b, t);
    }
  }

  /** Pruning removes no live entry, so it changes no count. */
  lemma {:induction false} CountPrune<P>(h: Heap<P>, s: seq<Entry<P>>, t: seq<P>)
    ensures CountLive(h, Prune(h, s), t) == CountLive(h, s, t)
    decreases |s|
  {
    if s != [] {
      var init, last := s[..|s| - 1], s[|s| - 1];
      CountPrune(h, init, t);
      CountAppend(h, Prune(h, init), if Live(h, last) then [last] else [], t);
      CountAppend(h, init, [last], t);
      assert s == init + [last];
    }
  }

  /** No entry matches `key` exactly when no live entry has its targets. */
  lemma {:induction false} NoMatchIffNoCount<P>(h: Heap<P>, s: seq<Entry<P>>, key: Key<P>)
    requires IsValidKey(h, key)
    ensures FirstMatch(h, s, key) == |s| <==> CountLive(h, s, Targets(h, key)) == 0
    decreases |s|
  {
    if s != [] {
      NoMatchIffNoCount(h, s[1..], key);
    }
  }

  /** Whether an entry fares the same in two heaps. */
  ghost predicate Agrees<P>(h1: Heap<P>, h2: Heap<P>, e: Entry<P>)
  {
    SameTargets(h1, h2, e.key) && (e.value in h1 <==> e.value in h2)
  }

  /** Heaps that agree on a list's entries give it the same live entries. */
  lemma {:induction false} AgreeingHeaps<P>(h1: Heap<P>, h2: Heap<P>, s: seq<Entry<P>>, t: seq<P>)
    requires forall e :: e in s ==> Agrees(h1, h2, e)
    ensures CountLive(h1, s, t) == CountLive(h2, s, t)
    ensures forall e :: e in s ==> (Live(h1, e) <==> Live(h2, e))
    decreases |s|
  {
    forall e | e in s
      ensures Live(h1, e) <==> Live(h2, e)
    {
      KeyUnaffected(h1, h2, e.key);
    }
    if s != [] {
      assert s[0] in s;
      KeyUnaffected(h1, h2, s[0].key);
      AgreeingHeaps(h1, h2, s[1..], t);
    }
  }

  /** Expiry never makes an entry live, so it never raises a count. */
  lemma {:induction false} CountAfterExpiry<P>(h1: Heap<P>, h2: Heap<P>, s: seq<Entry<P>>, t: seq<P>)
    requires Shrinks(h1, h2)
    ensures CountLive(h2, s, t) <= CountLive(h1, s, t)
    decreases |s|
  {
    if s != [] {
      if IsValidKey(h2, s[0].key) {
        KeyAfterExpiry(h1, h2, s[0].key);
      }
      CountAfterExpiry(h1, h2, s[1..], t);
    }
  }

  /** Objects expiring outside the factory keep at most one live entry per key. */
  lemma ExpiryKeepsUnique<P(!new)>(h1: Heap<P>, h2: Heap<P>, s: seq<Entry<P>>)
    requires Shrinks(h1, h2) && UniqueLive(h1, s)
    ensures UniqueLive(h2, s)
  {
    forall t
      ensures CountLive(h2, s, t) <= 1
    {
      CountAfterExpiry(h1, h2, s, t);
    }
  }

  // ---------------------------------------------------------------------
  // What `get` leaves behind

  /** Every id an entry mentions lies below `n`, so objects allocated from
    * `n` on cannot be confused with anything the entry refers to. */
  predicate RefsBelow<P>(e: Entry<P>, n: nat)
  {
    e.value < n && forall i :: 0 <= i < |e.key| && e.key[i].Weak? ==> e.key[i].ref < n
  }

  ghost predicate Bounded<P>(s: seq<Entry<P>>, n: nat)
  {
    forall e :: e in s ==> RefsBelow(e, n)
  }

  /** Entries of a partly pruned list all come from the original list. */
  lemma PrunedPrefixFrom<P>(h: Heap<P>, s: seq<Entry<P>>, j: nat, e: Entry<P>)
    requires j <= |s| && e in Prune(h, s[..j]) + s[j..]
    ensures e in s
  {
    if e in Prune(h, s[..j]) {
      PruneMembership(h, s[..j], e);
    }
  }

  /** A hit keeps one live entry per key: the pruned prefix lost only dead
    * entries, the matched entry and the rest are untouched, and locking the
    * matched value changes only its strong count. */
  lemma HitKeepsUnique<P(!new)>(h: Heap<P>, s: seq<Entry<P>>, j: nat, o: ObjId, n: nat)
    requires Bounded(s, n) && j <= |s| && o in h
    ensures UniqueLive(h, s) ==>
              UniqueLive(h[o := h[o].(strong := h[o].strong + 1)], Prune(h, s[..j]) + s[j..])
    ensures Bounded(Prune(h, s[..j]) + s[j..], n)
  {
    forall e | e in Prune(h, s[..j]) + s[j..]
      ensures RefsBelow(e, n)
    {
      PrunedPrefixFrom(h, s, j, e);
    }
    var h' := h[o := h[o].(strong := h[o].strong + 1)];
    var s' := Prune(h, s[..j]) + s[j..];
    if UniqueLive(h, s) {
      forall t
        ensures CountLive(h', s', t) <= 1
      {
        AgreeingHeaps(h, h', s', t);
        CountAppend(h, Prune(h, s[..j]), s[j..], t);
        CountPrune(h, s[..j], t);
        CountAppend(h, s[..j], s[j..], t);
        assert s[..j] + s[j..] == s;
      }
    }
  }

  /** A failed `create` leaves the fully pruned list, still one live entry
    * per key, and made of entries of the original list. */
  lemma FailureKeepsUnique<P(!new)>(h: Heap<P>, s: seq<Entry<P>>, n: nat)
    requires Bounded(s, n)
    ensures UniqueLive(h, s) ==> UniqueLive(h, Prune(h, s))
    ensures Bounded(Prune(h, s), n)
    ensures forall e :: e in Prune(h, s) ==> e in s && Live(h, e)
  {
    if UniqueLive(h, s) {
      forall t
        ensures CountLive(h, Prune(h, s), t) <= 1
      {
        CountPrune(h, s, t);
      }
    }
    forall e | e in Prune(h, s)
      ensures e in s && Live(h, e)
    {
      PruneMembership(h, s, e);
    }
  }

  /** The survivors of a full scan are live, refer only to ids below a fresh
    * id `o`, and fare the same once `o` is allocated. */
  lemma PrunedAgreeAfterAllocation<P>(h: Heap<P>, s: seq<Entry<P>>, o: ObjId, p: P)
    requires Bounded(s, o) && o !in h
    ensures forall e :: e in Prune(h, s) ==>
      Agrees(h, h[o := Cell(1, p)], e) && Live(h, e) && RefsBelow(e, o + 1)
  {
    forall e | e in Prune(h, s)
      ensures Agrees(h, h[o := Cell(1, p)], e) && Live(h, e) && RefsBelow(e, o + 1)
    {
      PruneMembership(h, s, e);
    }
  }

  /** The new pair of a miss is the only live entry for its key: the full
    * scan found no live entry equal to `key`. */
  lemma NewEntryUnique<P(!new)>(h: Heap<P>, s: seq<Entry<P>>, key: Key<P>, o: ObjId, p: P)
    requires UniqueLive(h, s) && IsValidKey(h, key) && FirstMatch(h, s, key) == |s|
    requires Bounded(s, o) && o !in h
    requires forall i :: 0 <= i < |key| && key[i].Weak? ==> key[i].ref < o
    ensures UniqueLive(h[o := Cell(1, p)], [Entry(key, o)] + Prune(h, s))
  {
    var h' := h[o := Cell(1, p)];
    var pr := Prune(h, s);
    var s' := [Entry(key, o)] + pr;
    PrunedAgreeAfterAllocation(h, s, o, p);
    KeyUnaffected(h, h', key);
    forall t
      ensures CountLive(h', s', t) <= 1
    {
      AgreeingHeaps(h, h', pr, t);
      CountPrune(h, s, t);
      NoMatchIffNoCount(h, s, key);
      assert s'[1..] == pr;
    }
  }

  /** After a miss the list holds only live entries, and one per key if it
    * had at most one before: the full scan removed every dead entry and
    * found no live one equal to `key`. */
  lemma MissLeavesUniqueLive<P(!new)>(h: Heap<P>, s: seq<Entry<P>>, key: Key<P>, o: ObjId, p: P)
    requires IsValidKey(h, key) && FirstMatch(h, s, key) == |s|
    requires Bounded(s, o) && o !in h
    requires forall i :: 0 <= i < |key| && key[i].Weak? ==> key[i].ref < o
    ensures var h' := h[o := Cell(1, p)]; var s' := [Entry(key, o)] + Prune(h, s);
      && (UniqueLive(h, s) ==> UniqueLive(h', s')) && Bounded(s', o + 1)
      && forall e :: e in s' ==> Live(h', e)
  {
    var h' := h[o := Cell(1, p)];
    var s' := [Entry(key, o)] + Prune(h, s);
    PrunedAgreeAfterAllocation(h, s, o, p);
    KeyUnaffected(h, h', key);
    AgreeingHeaps(h, h', Prune(h, s), []);
    assert Live(h', s'[0]) && RefsBelow(s'[0], o + 1);
    assert forall e :: e in s' ==> e == s'[0] || e in Prune(h, s);
    if UniqueLive(h, s) {
      NewEntryUnique(h, s, key, o, p);
    }
  }

  /** A caller allocating an object between calls, for instance to build a
    * `shared_ptr` part of the next key, keeps at most one live entry per key:
    * no entry refers to the fresh id, so no entry comes to life. */
  lemma AllocationKeepsUnique<P(!new)>(h: Heap<P>, s: seq<Entry<P>>, o: ObjId, p: P)
    requires UniqueLive(h, s) && Bounded(s, o) && o !in h
    ensures UniqueLive(h[o := Cell(1, p)], s) && Bounded(s, o + 1)
  {
    var h' := h[o := Cell(1, p)];
    forall e | e in s
      ensures Agrees(h, h', e) && RefsBelow(e, o + 1)
    {
      assert RefsBelow(e, o);
    }
    forall t
      ensures CountLive(h', s, t) <= 1
    {
      AgreeingHeaps(h, h', s, t);
    }
  }

  /** Writes are not like releases and allocations: a caller that writes
    * through the `shared_ptr` behind a weak key part changes that key's
    * targets, so two live entries can come to have equal keys. The list is
    * still accepted, and the scan stops at the first of them. */
  lemma WriteCanBreakUnique()
    ensures var s := [Entry([Weak(0)], 2), Entry([Weak(1)], 3)];
      var h1: Heap<int> := map[0 := Cell(1, 5), 1 := Cell(1, 4), 2 := Cell(1, 7), 3 := Cell(1, 7)];
      var h2 := h1[1 := Cell(1, 5)];
      && UniqueLive(h1, s) && !UniqueLive(h2, s)
      && FirstMatch(h2, s, [Weak(0)]) == 0
  {
    var s := [Entry([Weak(0)], 2), Entry([Weak(1)], 3)];
    var h1: Heap<int> := map[0 := Cell(1, 5), 1 := Cell(1, 4), 2 := Cell(1, 7), 3 := Cell(1, 7)];
    var h2 := h1[1 := Cell(1, 5)];
    assert Targets(h1, s[0].key) == [5] && Targets(h1, s[1].key) == [4];
    assert Targets(h2, s[0].key) == [5] && Targets(h2, s[1].key) == [5];
    assert s[1..][1..] == [];
    assert CountLive(h2, s, [5]) == 2;
  }

  /** `create` is user code: should it drop references it holds, objects
    * may expire between the scan and the insertion of the new pair. The list
    * then still has at most one live entry per key; only "every entry is
    * live" is lost. */
  lemma ExpiryDuringCreateKeepsUnique<P(!new)>(h: Heap<P>, h2: Heap<P>, s: seq<Entry<P>>, key: Key<P>, o: ObjId, p: P)
    requires UniqueLive(h, s) && IsValidKey(h, key) && FirstMatch(h, s, key) == |s|
    requires Bounded(s, o) && o !in h
    requires forall i :: 0 <= i < |key| && key[i].Weak? ==> key[i].ref < o
    requires Shrinks(h, h2)
    ensures UniqueLive(h2[o := Cell(1, p)], [Entry(key, o)] + Prune(h, s))
  {
    MissLeavesUniqueLive(h, s, key, o, p);
    ExpiryKeepsUnique(h[o := Cell(1, p)], h2[o := Cell(1, p)], [Entry(key, o)] + Prune(h, s));
  }

  // ---------------------------------------------------------------------
  // The heap, as far as the factory uses it

  class Memory<P> {
    var cells: Heap<P>
    var nextId: nat

    ghost predicate Valid()
      reads this
    {
      forall o :: o in cells ==> o < nextId && cells[o].strong >= 1
    }

    constructor ()
      ensures Valid() && cells == map[] && nextId == 0
    {
      cells, nextId := map[], 0;
    }

    /** A new `shared_ptr` to a fresh object holding `p`. */
    method Allocate(p: P) returns (o: ObjId)
      requires Valid()
      modifies this
      ensures Valid()
      ensures o == old(nextId) && o !in old(cells) && nextId == o + 1
      ensures cells == old(cells)[o := Cell(1, p)]
    {
      o := nextId;
      cells := cells[o := Cell(1, p)];
      nextId := nextId + 1;
    }

    /** A `shared_ptr` made from a `weak_ptr` to a live object. */
    method Lock(o: ObjId)
      requires Valid() && o in cells
      modifies this
      ensures Valid() && nextId == old(nextId)
      ensures cells == old(cells)[o := old(cells)[o].(strong := old(cells)[o].strong + 1)]
    {
      cells := cells[o := cells[o].(strong := cells[o].strong + 1)];
    }

    /** A caller writes `p` through a `shared_ptr` it holds to `o`: the
      * object keeps its identity and strong count and now holds `p`. */
    method Write(o: ObjId, p: P)
      requires Valid() && o in cells
      modifies this
      ensures Valid() && nextId == old(nextId)
      ensures cells == old(cells)[o := Cell(old(cells)[o].strong, p)]
    {
      cells := cells[o := Cell(cells[o].strong, p)];
    }

    /** A `shared_ptr` is destroyed; the last one frees the object, so the
      * weak references to it expire. */
    method Release(o: ObjId)
      requires Valid() && o in cells
      modifies this
      ensures Valid() && nextId == old(nextId) && Shrinks(old(cells), cells)
      ensures cells == if old(cells)[o].strong > 1
                       then old(cells)[o := old(cells)[o].(strong := old(cells)[o].strong - 1)]
                       else old(cells) - {o}
    {
      if cells[o].strong > 1 {
        cells := cells[o := cells[o].(strong := cells[o].strong - 1)];
      } else {
        cells := cells - {o};
      }
    }
  }

  // ---------------------------------------------------------------------
  // The factory

  class UniqueFactory<P(==,!new)> {
    var cache: seq<Entry<P>>

    /** The list mentions only allocated ids. */
    ghost predicate Valid(mem: Memory<P>)
      reads this, mem
    {
      mem.Valid() && Bounded(cache, mem.nextId)
    }

    /** The list has at most one live entry per key. `get` keeps this, and so
      * do releases and allocations between calls; a caller writing through a
      * `shared_ptr` behind a weak key part can break it. */
    ghost predicate Unique(mem: Memory<P>)
      reads this, mem
    {
      UniqueLive(mem.cells, cache)
    }

    constructor ()
      ensures cache == []
      ensures forall mem: Memory<P> :: mem.Valid() ==> Valid(mem) && Unique(mem)
    {
      cache := [];
    }

    /** One pass of the loop of `get` over the entry at position `i`: a dead
      * entry is erased, a live one is compared with `key`. */
    method Visit(h: Heap<P>, key: Key<P>, i: nat, ghost c0: seq<Entry<P>>, ghost j: nat, ghost done: seq<Entry<P>>)
      returns (found: bool, next: nat, ghost done': seq<Entry<P>>)
      requires IsValidKey(h, key) && Scanned(h, c0, key, j, done, cache) && i == |done| && j < |c0|
      modifies this
      ensures found ==> cache == old(cache) && next == i && done' == done && Matches(h, c0[j], key)
      ensures !found ==> Scanned(h, c0, key, j + 1, done', cache) && next == |done'|
    {
      ScanAt(h, c0, key, j, done, cache);
      found, next, done' := false, i, done;
      if !IsValidKey(h, cache[i].key) || cache[i].value !in h {
        ScanErase(h, c0, key, j, done, cache);
        cache := cache[..i] + cache[i + 1..];
      } else if Eq(h, cache[i].key, key) {
        found := true;
      } else {
        ScanPass(h, c0, key, j, done, cache);
        next, done' := i + 1, done + [c0[j]];
      }
    }

    /** The loop of `get`: erase dead entries from the front of the list
      * until the first entry that matches `key`, and return where that
      * entry now stands (the length of the list when there is none). */
    method Scan(mem: Memory<P>, key: Key<P>) returns (i: nat)
      requires IsValidKey(mem.cells, key)
      modifies this
      ensures var c, j := old(cache), FirstMatch(mem.cells, old(cache), key);
        && cache == Prune(mem.cells, c[..j]) + c[j..]
        && i == |Prune(mem.cells, c[..j])|
    {
      var h := mem.cells;
      ghost var c0 := cache;
      ghost var done: seq<Entry<P>> := [];
      ghost var j := 0;
      i := 0;
      while i < |cache|
        invariant Scanned(h, c0, key, j, done, cache) && i == |done|
        decreases |c0| - j
      {
        assert |cache| == |done| + |c0| - j;
        var found;
        found, i, done := Visit(h, key, i, c0, j, done);
        if found {
          ScanDone(h, c0, key, j, done, cache);
          return;
        }
        j := j + 1;
      }
      assert j == |c0|;
      ScanDone(h, c0, key, j, done, cache);
    }

    /** `get(k..., create)`; `create` is the value `create(k...)` returns,
      * or `None` when it throws. */
    method Get(mem: Memory<P>, key: Key<P>, create: Option<P>) returns (out: Outcome)
      requires Valid(mem) && IsValidKey(mem.cells, key)
      modifies this, mem
      ensures Valid(mem)
      ensures old(Unique(mem)) ==> Unique(mem)
      ensures var h, c := old(mem.cells), old(cache);
        var j := FirstMatch(h, c, key);
        if j < |c| then
          && out == Hit(c[j].value)
          && cache == Prune(h, c[..j]) + c[j..]
          && mem.cells == h[c[j].value := h[c[j].value].(strong := h[c[j].value].strong + 1)]
          && mem.nextId == old(mem.nextId)
        else if create.Some? then
          && out == Created(old(mem.nextId)) && out.obj !in h
          && cache == [Entry(key, out.obj)] + Prune(h, c)
          && mem.cells == h[out.obj := Cell(1, create.value)]
          && mem.nextId == old(mem.nextId) + 1
        else
          && out == CreateFailed
          && cache == Prune(h, c)
          && mem.cells == h && mem.nextId == old(mem.nextId)
      ensures out.Created? ==> forall e :: e in cache ==> Live(mem.cells, e)
    {
      ghost var h, c0 := mem.cells, cache;
      ghost var j := FirstMatch(h, c0, key);
      assert Unique(mem) == UniqueLive(h, c0);
      var i := Scan(mem, key);
      if i < |cache| {
        assert j < |c0|;
        assert cache[i] == c0[j];
        var v := cache[i].value;
        mem.Lock(v);
        HitKeepsUnique(h, c0, j, v, mem.nextId);
        assert UniqueLive(h, c0) ==> Unique(mem);
        return Hit(v);
      }
      assert j == |c0| && c0[..j] == c0 && c0[j..] == [];
      FailureKeepsUnique(h, c0, mem.nextId);
      assert cache == Prune(h, c0) && mem.cells == h;
      if create.None? {
        assert UniqueLive(h, c0) ==> Unique(mem);
        return CreateFailed;
      }
      ValidKeyIffAllAlive(h, key);
      var o := mem.Allocate(create.value);
      MissLeavesUniqueLive(h, c0, key, o, create.value);
      cache := [Entry(key, o)] + cache;
      out := Created(o);
      assert UniqueLive(h, c0) ==> Unique(mem);
    }
  }
}

=== FILE: retention.dfy ===
/**
 * Retention policies of the unique factory (`KeepNothingAlive` and
 * `KeepSetAlive<history>`), stated on the working set of values whose strong
 * references the policy holds. How those references change reference counts
 * is modelled in FactoryState; this module only says which values are held.
 */
module Retention {

  /** The policy a factory is instantiated with; fixed for its lifetime. */
  datatype Policy = KeepNothingAlive | KeepSetAlive(history: nat)

  /** Most values a policy may hold at once. `KeepSetAlive(0)` still holds
    * the value just inserted, because `insert` clears and then inserts. */
  function Capacity(p: Policy): (c: nat)
    ensures p.KeepNothingAlive? ==> c == 0
    ensures p.KeepSetAlive? ==> c >= 1 && c >= p.history
    ensures p.KeepSetAlive? && p.history >= 1 ==> c == p.history
    ensures p == KeepSetAlive(0) ==> c == 1
  {
    match p
    case KeepNothingAlive => 0
    case KeepSetAlive(history) => if history == 0 then 1 else history
  }

  /** The working set after `clear()`. */
  function Clear<T>(p: Policy, ws: set<T>): (r: set<T>)
    ensures r <= ws
    ensures p.KeepSetAlive? ==> r == {}
    ensures p.KeepNothingAlive? ==> r == ws
  {
    match p
    case KeepNothingAlive => ws
    case KeepSetAlive(_) => {}
  }

  /** The working set after `insert(v)`: a full set is dropped as a whole
    * (not least-recently-used eviction) before `v` is added. */
  function Insert<T>(p: Policy, ws: set<T>, v: T): (r: set<T>)
    ensures p.KeepNothingAlive? ==> r == ws
    ensures p.KeepSetAlive? ==> v in r && r <= ws + {v}
    ensures p.KeepSetAlive? && |ws| >= p.history ==> r == {v}
    ensures p.KeepSetAlive? && |ws| < p.history ==> r == ws + {v}
  {
    match p
    case KeepNothingAlive => ws
    case KeepSetAlive(history) =>
      (if |ws| >= history then Clear(p, ws) else ws) + {v}
  }

  /** `KeepNothingAlive` holds nothing, whatever is inserted or cleared. */
  lemma {:induction false} KeepNothingHoldsNothing<T>(ws: set<T>, vs: seq<T>)
    requires ws == {}
    ensures InsertAll(KeepNothingAlive, ws, vs) == {}
  {
    if vs != [] {
      KeepNothingHoldsNothing(Insert(KeepNothingAlive, ws, vs[0]), vs[1..]);
    }
  }

  /** The working set after inserting each of `vs` in turn. */
  function InsertAll<T>(p: Policy, ws: set<T>, vs: seq<T>): (r: set<T>)
    decreases |vs|
  {
    if vs == [] then ws else InsertAll(p, Insert(p, ws, vs[0]), vs[1..])
  }

  /** One insertion keeps a working set within the policy's capacity. */
  lemma InsertBounded<T>(p: Policy, ws: set<T>, v: T)
    requires |ws| <= Capacity(p)
    ensures |Insert(p, ws, v)| <= Capacity(p)
  {
    if p.KeepSetAlive? && |ws| < p.history {
      assert |ws + {v}| <= |ws| + 1;
    }
  }

  /** Any sequence of insertions keeps a working set within capacity, for
    * every `history`, and within `history` when `history >= 1`. */
  lemma {:induction false} InsertAllBounded<T>(p: Policy, ws: set<T>, vs: seq<T>)
    requires |ws| <= Capacity(p)
    ensures |InsertAll(p, ws, vs)| <= Capacity(p)
    ensures p.KeepSetAlive? && p.history >= 1 ==> |InsertAll(p, ws, vs)| <= p.history
    decreases |vs|
  {
    if vs != [] {
      InsertBounded(p, ws, vs[0]);
      InsertAllBounded(p, Insert(p, ws, vs[0]), vs[1..]);
    }
  }

  /** Eviction is drop-all: once the set holds `history` values, inserting a
    * new one releases every value held before. */
  lemma DropAllEviction<T>(history: nat, ws: set<T>, v: T, u: T)
    requires |ws| >= history && u in ws && u != v
    ensures u !in Insert(KeepSetAlive(history), ws, v)
  {
  }

  /** `KeepSetAlive(0)` is not "keep nothing": it keeps the last value. */
  lemma ZeroHistoryKeepsLast<T>(ws: set<T>, v: T)
    ensures Insert(KeepSetAlive(0), ws, v) == {v}
    ensures Capacity(KeepSetAlive(0)) == 1
  {
  }
}

=== FILE: shared_objects.dfy ===
/**
 * What both unique factories share: shared objects are told apart by the
 * identity of their control block, and `get` ends in one of three ways.
 */
module SharedObjects {

  /** Identity of a shared object (its control block). Ids are never reused,
    * as no two control blocks are ever confused by a weak_ptr. */
  type ObjId = nat

  /** What `get` did: returned a cached object, created one, or `create()`
    * failed. */
  datatype Outcome = Hit(obj: ObjId) | Created(obj: ObjId) | CreateFailed
}

=== FILE: weak_keys.dfy ===
/**
 * Keys of the earlier, list-based unique factory (unique_factory.hpp). A key
 * is a tuple whose parts are plain values or weak references to shared
 * objects; a weak part dies when its object expires. The heap is abstract:
 * the live objects, each with its strong count and the value it holds.
 */
module WeakKeys {
  import opened SharedObjects

  /** A live object: its strong reference count and its value. */
  datatype Cell<P> = Cell(strong: nat, payload: P)

  /** The live objects; an id that is absent has expired. */
  type Heap<P> = map<ObjId, Cell<P>>

  /** One part of a stored key: a value, or a weak reference to an object. */
  datatype KeyPart<P> = Plain(value: P) | Weak(ref: ObjId)

  type Key<P> = seq<KeyPart<P>>

  /** `isAlive`: only a weak part can die, when its object has expired. */
  predicate IsAlive<P>(h: Heap<P>, part: KeyPart<P>): (r: bool)
    ensures !r ==> part.Weak? && part.ref !in h
    ensures part.Weak? && part.ref !in h ==> !r
  {
    part.Weak? ==> part.ref in h
  }

  /** `isValidKey`: every part of the key is alive (a fold of `&&`). */
  predicate IsValidKey<P>(h: Heap<P>, key: Key<P>): (r: bool)
    ensures r ==> forall i :: 0 <= i < |key| ==> IsAlive(h, key[i])
    decreases |key|
  {
    key == [] || (IsAlive(h, key[0]) && IsValidKey(h, key[1..]))
  }

  /** `target`: a weak part stands for the value of the object it refers to. */
  function Target<P>(h: Heap<P>, part: KeyPart<P>): (v: P)
    requires IsAlive(h, part)
    ensures part.Plain? ==> v == part.value
    ensures part.Weak? ==> v == h[part.ref].payload
  {
    match part
    case Plain(v) => v
    case Weak(r) => h[r].payload
  }

  /** The tuple of targets of a valid key. */
  function Targets<P>(h: Heap<P>, key: Key<P>): (t: seq<P>)
    requires IsValidKey(h, key)
    ensures |t| == |key|
    ensures forall i :: 0 <= i < |key| ==> IsAlive(h, key[i]) && t[i] == Target(h, key[i])
    decreases |key|
  {
    if key == [] then [] else [Target(h, key[0])] + Targets(h, key[1..])
  }

  /** `eq`: two valid keys are equal when their tuples of targets are. */
  predicate Eq<P(==)>(h: Heap<P>, a: Key<P>, b: Key<P>): (r: bool)
    requires IsValidKey(h, a) && IsValidKey(h, b)
    ensures a == b ==> r
    ensures r ==> |a| == |b|
  {
    Targets(h, a) == Targets(h, b)
  }

  /** A key is valid exactly when none of its weak parts has expired;
    * plain parts never make a key invalid. */
  lemma {:induction false} ValidKeyIffAllAlive<P>(h: Heap<P>, key: Key<P>)
    ensures IsValidKey(h, key) <==>
      forall i :: 0 <= i < |key| && key[i].Weak? ==> key[i].ref in h
    decreases |key|
  {
    if key != [] {
      ValidKeyIffAllAlive(h, key[1..]);
      assert forall i :: 1 <= i < |key| ==> key[i] == key[1..][i - 1];
    }
  }

  /** `eq` compares part by part, each part by its target. */
  lemma EqIffComponentwise<P>(h: Heap<P>, a: Key<P>, b: Key<P>)
    requires IsValidKey(h, a) && IsValidKey(h, b)
    ensures |Targets(h, a)| == |a| && |Targets(h, b)| == |b|
    ensures Eq(h, a, b) <==>
      |a| == |b| && forall i :: 0 <= i < |a| ==> Target(h, a[i]) == Target(h, b[i])
  {
    if |a| == |b| && forall i :: 0 <= i < |a| ==> Target(h, a[i]) == Target(h, b[i]) {
      assert Targets(h, a) == Targets(h, b);
    }
  }

  /** Whether a key's weak parts fare the same in two heaps. */
  ghost predicate SameTargets<P>(h1: Heap<P>, h2: Heap<P>, key: Key<P>)
  {
    forall i :: 0 <= i < |key| && key[i].Weak? ==>
      (key[i].ref in h1 <==> key[i].ref in h2) &&
      (key[i].ref in h1 ==> h1[key[i].ref].payload == h2[key[i].ref].payload)
  }

  /** A key is valid, and has the same targets, in two heaps that agree on
    * the objects its weak parts refer to. */
  lemma {:induction false} KeyUnaffected<P>(h1: Heap<P>, h2: Heap<P>, key: Key<P>)
    requires SameTargets(h1, h2, key)
    ensures IsValidKey(h1, key) <==> IsValidKey(h2, key)
    ensures IsValidKey(h1, key) ==> Targets(h1, key) == Targets(h2, key)
    decreases |key|
  {
    if key != [] {
      assert forall i :: 1 <= i < |key| ==> key[1..][i - 1] == key[i];
      KeyUnaffected(h1, h2, key[1..]);
    }
  }

  /** Objects only expire: `h2` is `h1` with some objects gone. */
  ghost predicate Shrinks<P>(h1: Heap<P>, h2: Heap<P>)
  {
    h2.Keys <= h1.Keys && forall o :: o in h2 ==> h2[o].payload == h1[o].payload
  }

  /** A key that is valid after objects expired was valid before, with the
    * same targets. */
  lemma {:induction false} KeyAfterExpiry<P>(h1: Heap<P>, h2: Heap<P>, key: Key<P>)
    requires Shrinks(h1, h2) && IsValidKey(h2, key)
    ensures IsValidKey(h1, key) && Targets(h1, key) == Targets(h2, key)
    decreases |key|
  {
    if key != [] {
      KeyAfterExpiry(h1, h2, key[1..]);
    }
  }
}
